=== FILE: README.md ===
# Sidebar dashboard viewer: freshness tracking and popup reuse

This project models the core of the static sidebar dashboard's viewer script (`docs/js/viewer.js`). The page shows a markdown sidebar and a main content area. Two timers poll the server with HEAD requests and reload either part when its `Last-Modified` time is strictly later than the one last recorded. Markdown links open in named popup windows, and a popup is reused when it already shows its rendered shell under the same title.

The model has two layers:

- **`Tracker`** (`tracker.dfy`) is the page's whole state as one value, `Session`. It holds the three tracking variables (`lastSidebarModified`, `currentContentFile`, `lastContentModified`), the sidebar and content HTML, whether polling has started, and the named popup windows. It also keeps logs of focus calls, page windows, requests sent and alerts shown. Each operation of the script is one transition function on `Session`.
- **`Viewer`** (`dashboard.dfy`) is the page as the script runs it. A `Dashboard` object holds those variables as fields, and a `PopupHost` object holds the browser's named windows. Each method updates its fields step by step, in the same branches as the script. Each method is proved to leave exactly the state its `Tracker` transition gives.

The properties are lemmas about the transitions:

- `Freshness` (`freshness.dfy`): full loads and polls.
- `Popups` (`popups.dfy`): opening markdown popups.

The helpers the script computes inline are pure functions with their own lemmas:

- `Text` (`text.dfy`): the window name, the file label, and the string predicates.
- `Headings` (`headings.dfy`): the sidebar's heading rewrite.
- `Layout` (`layout.dfy`): the greeting choice, window geometry and link dispatch.

Abstractions:

- A fetch result is `Response(ok, lastModified, body)`. A transport failure is read as `ok == false`, because every caller treats a rejected fetch and a non-OK status the same way. Timestamps are plain integers.
- A full load takes a `Fetched(response, clock)`. The `clock` is the `new Date().getTime()` reading the load takes before it fetches. A poll takes the tick's own reading (`tick`) as an argument.
- The markdown renderer (`marked.parse`) is a parameter, `render: string -> string`, about which nothing is assumed.
- `window.open` returning `null` is the argument `allowed == false`.
- The user closing a popup is `PopupHost.Close` / `Tracker.WindowClosed`. The user following a link inside a popup, or reloading it, to a same-origin page is `PopupHost.Navigate` / `Tracker.WindowNavigated`: the popup then shows a page without the `#content` element. Both are host behaviour, not script code.
- The page's initial sidebar and content markup comes from the HTML page, which is not part of this model. It is taken as empty.

Three behaviours of the script are easy to expect otherwise, so lemmas state them:

- A stored time can go back:
  - A sidebar reload stores the GET's header, or its own clock when there is no header, without comparing either to the HEAD time or to the stored time (`SidebarPollMayRewind`).
  - A content poll of `welcome.md` reloads through the welcome load, which stores the reload's header or clock the same way (`ContentPollWelcomeMayRewind`).
  - A popup open stores its header time without any comparison (`OpenMayRewind`).
  - `SidebarPollAdvances` and `ContentPollAdvances` state the local monotonicity that does hold.
- A popup open writes the single `lastContentModified`, and only when the header is present. It also makes the popup's URL the tracked file. So a later content poll redraws the main content area, not the popup (`PollAfterOpenTargetsMainArea`).
- Only the welcome load replaces its loading line with an error block. A failed `loadContent` leaves its loading line and keeps the new file tracked (`ContentLoadSwitchesFirst`).

## Model

| member | source | states |
|---|---|---|
| Text.StartsWithSplit | docs/js/viewer.js:117-118 | a string starts with `p` if and only if it is `p` followed by the rest of it; the heading matcher splits a string at a recognised tag through this |
| Text.EndsWithSplit | docs/js/viewer.js:243 | `endsWith` holds if and only if the string is its front followed by the suffix; `Layout.MarkdownLinkInPopup` uses it |
| Text.ContainsInfix | docs/js/viewer.js:61-67 | `includes` finds a substring wherever it sits, and never in a shorter string |
| Text.ReplaceNonAlnum | docs/js/viewer.js:300 | the global replace keeps the length, keeps every `[A-Za-z0-9]` character in place and turns every other character into `_` |
| Text.WindowName | docs/js/viewer.js:300 | the popup name is `markdown_` followed by the sanitised URL: length 9 + the URL's length, alphanumerics at their positions, `_` elsewhere |
| Text.WindowNameEqualIff | docs/js/viewer.js:300 | two URLs get the same window name if and only if they have the same length and agree position by position once non-alphanumerics are read as `_` |
| Text.WindowNameCollides | docs/js/viewer.js:297-301 | URLs that differ only where both characters are non-alphanumeric share one popup |
| Text.WindowNameSeparates | docs/js/viewer.js:297-301 | URLs that differ at a position where one has an alphanumeric get different popups |
| Text.LastSegment | docs/js/viewer.js:397 | the file label `url.split('/').pop()` is a suffix of the URL without `/` that is the whole URL or follows a `/` |
| Text.LastSegmentUnique | docs/js/viewer.js:397 | those three properties determine the label: any suffix that has them is the label |
| Text.LastSegmentOfPath | docs/js/viewer.js:397 | the label of `dir/name` is `name` when `name` has no `/` |
| Headings.FindClose | docs/js/viewer.js:117-118 | a found closing tag splits the scanned text into the capture, the closing tag and the rest after it |
| Headings.FindCloseFirst | docs/js/viewer.js:117-118 | the capture holds no line terminator and no closing tag starts inside it: the lazy group `(.*?)` stops at the first closing tag on the line |
| Headings.MatchAt | docs/js/viewer.js:117-118 | a match at a scan position is the opening tag, the capture, the closing tag and the rest; there is no match where the opening tag does not start |
| Headings.MatchFromClose | docs/js/viewer.js:117-118 | definition step of `Headings.MatchAt`: an opening tag followed by text whose closing tag is found is a match at that position, with that capture |
| Headings.FindCloseAfter | docs/js/viewer.js:117-118 | for text on one line that holds no closing tag, the lazy match ends right after that text |
| Headings.ReplaceTagMatch | docs/js/viewer.js:117-118 | definition step of the global replace `Headings.ReplaceTag`: a match at the scan position is replaced by the new tags around its capture and scanning resumes after it (the replace's meaning is carried by the `ReplaceTagHeading`, `ReplaceTagSkips`, `UnclosedTagKept` and `ReplaceTagIdentity` rows) |
| Headings.ReplaceTagKeep | docs/js/viewer.js:117-118 | definition step of `Headings.ReplaceTag`: where no opening tag starts, the character is copied and the scan moves on by one |
| Headings.HeadingMatches | docs/js/viewer.js:117-118 | a single-line heading at the front is a match whose capture is exactly its text |
| Headings.ReplaceTagHeading | docs/js/viewer.js:116-118 | a single-line `<hN>t</hN>` becomes the `sidebar-title` / `section-title` div around `t`, and the rest is rewritten in turn |
| Headings.ReplaceTagSkips | docs/js/viewer.js:116-118 | a prefix in which no opening tag starts passes through unchanged |
| Headings.FindCloseStopsAtLine | docs/js/viewer.js:117-118 | the lazy group does not cross a line: when a line terminator comes before any closing tag there is no match |
| Headings.UnclosedTagKept | docs/js/viewer.js:117-118 | an opening tag whose line ends before its closing tag is not a match, and the global replace keeps it as text and scans on |
| Headings.ReplaceTagIdentity | docs/js/viewer.js:116-118 | HTML with no opening tag is left exactly as it was |
| Headings.TitlePass | docs/js/viewer.js:117 | the `<h1>` pass turns a one-line `<h1>t</h1>` into the `sidebar-title` div around `t` |
| Headings.SectionPassKeepsTitle | docs/js/viewer.js:118 | the `<h2>` pass leaves a `sidebar-title` div whose text has no `<` unchanged |
| Headings.SidebarHeadingsTitle | docs/js/viewer.js:116-118 | the sidebar's two chained replaces (`Headings.SidebarHeadings`) turn a one-line `<h1>t</h1>` with no `<` in `t` into exactly `<div class="sidebar-title">t</div>` |
| Layout.GreetingFile | docs/js/viewer.js:61-79 | Author Mode gives `author_greeting.md` whenever detected; Development Mode gives `dev_greeting.md` only when Author Mode is not detected; otherwise `welcome.md` (each as an if-and-only-if) |
| Layout.AuthorTitleGreets | docs/js/viewer.js:61-75 | a page whose title contains "Author Mode" anywhere is in Author Mode (`Layout.IsAuthorMode`) and loads `author_greeting.md` |
| Layout.DevAddressGreets | docs/js/viewer.js:66-78 | an address containing "development-mode" is Development Mode (`Layout.IsDevMode`); it loads `dev_greeting.md` unless Author Mode is detected as well |
| Layout.MarkdownLinkInPopup | docs/js/viewer.js:273 | a link to any name followed by `.md` is rendered in a markdown popup |
| Layout.PopupBounds | docs/js/viewer.js:292-295 | a popup is 800 wide and at least 600 tall (the screen height less 100 if larger), 300 to the right of the browser window, level with its top |
| Layout.PageBounds | docs/js/viewer.js:445-454 | a plain page starts 25 right of the sidebar and ends 25 short of the screen's right edge, 50 from the top, 100 shorter than the screen |
| Layout.ClickAction | docs/js/viewer.js:272-277 | a link is rendered in a markdown popup exactly when its URL ends in `.md` |
| Freshness.SidebarLoadStoresTime | docs/js/viewer.js:94-121 | a successful sidebar load stores the header time, or its own clock without a header, and shows the heading-rewritten render; a failed one changes nothing but its request |
| Freshness.ContentLoadSwitchesFirst | docs/js/viewer.js:151-178 | `loadContent` tracks the new file and shows the loading line before fetching; on failure the new file stays tracked, the loading line stays and the old time is kept; on success the time is the header's or the clock's |
| Freshness.GreetingOverwritten | docs/js/viewer.js:33-53 | after a successful start-up polling runs and `welcome.md` is tracked and shown (or its error block) whatever greeting was chosen, and the content time is the last successful load's (welcome, else greeting, else fallback, else 0); a failed sidebar load shows the sidebar error and loads nothing else |
| Freshness.GreetingRequestedFirst | docs/js/viewer.js:36-42 | start-up fetches the mode's greeting before, and `welcome.md` last, after the sidebar |
| Freshness.SidebarPollNoChange | docs/js/viewer.js:190-214 | a sidebar HEAD that fails, lacks `Last-Modified`, or reports an equal or older time leaves everything but its own request unchanged |
| Freshness.SidebarPollReloads | docs/js/viewer.js:201-210 | a strictly later sidebar time triggers exactly one GET; on success the sidebar is redrawn with the reload's stored time; content and popups are untouched |
| Freshness.SidebarPollAdvances | docs/js/viewer.js:201-210 | when the reload's header is at least the HEAD's, the stored sidebar time never decreases, and strictly increases whenever the HEAD reports a later time and the reload succeeds (and so whenever the sidebar HTML changes) |
| Freshness.SidebarPollMayRewind | docs/js/viewer.js:105-110 | a reload without a header stores its clock, which can be below the stored time |
| Freshness.ContentPollIdle | docs/js/viewer.js:220 | with an empty tracked file the content poll sends nothing and changes nothing |
| Freshness.ContentPollNoChange | docs/js/viewer.js:219-237 | a content HEAD that fails, lacks `Last-Modified`, or is not strictly later changes nothing but its own request |
| Freshness.ContentPollMarkdown | docs/js/viewer.js:243-251 | for a `.md` file other than `welcome.md` a later time GETs the file with the tick's cache-buster; success redraws the content area and stores exactly the polled time, which is strictly larger; failure changes nothing else |
| Freshness.ContentPollOtherFile | docs/js/viewer.js:240-253 | a tracked file not ending in `.md` is never reloaded |
| Freshness.ContentPollWelcome | docs/js/viewer.js:241-242 | for `welcome.md` a later time goes through the welcome load: success stores the reload's own time, failure shows the welcome error block |
| Freshness.ContentPollWelcomeMayRewind | docs/js/viewer.js:241-242 | a content poll of `welcome.md` whose reload has no header stores the reload's clock, which can be below the stored time |
| Freshness.ContentPollAdvances | docs/js/viewer.js:233-252 | outside `welcome.md` the content poll never lowers the stored content time |
| Freshness.SidebarTwoTicks | docs/js/viewer.js:190-214 | after a load at t1, a tick reporting t1 reloads nothing and a tick reporting t2 > t1 sends one GET and leaves t2 stored |
| Popups.OpenBlocked | docs/js/viewer.js:287-306 | when the host gives no window: one alert, no fetch, no window written, yet the URL is already the tracked file |
| Popups.OpenReuses | docs/js/viewer.js:308-313 | a popup that has the `#content` marker and the same title is only focused: no fetch and no write |
| Popups.OpenWrites | docs/js/viewer.js:315-322 | any other allowed open sets the popup's title and sends one GET without a cache-buster; the other windows, both page areas, the sidebar time, polling and page windows are untouched |
| Popups.OpenWritesShell | docs/js/viewer.js:319-434 | the popup has the `#content` marker afterwards if and only if the GET succeeded, and the shell then holds the file label and the render; a failure leaves the placeholder and alerts |
| Popups.OpenStoresHeaderOnly | docs/js/viewer.js:328-332 | the popup's GET changes the stored content time only to a header time, with no clock fallback |
| Popups.OpenTwiceFetchesOnce | docs/js/viewer.js:308-322 | two opens with the same URL and title, with no user action on the popup in between: if the first GET succeeded, the second sends no request and only focuses |
| Popups.OpenAfterFailureRefetches | docs/js/viewer.js:319-434 | if the first GET failed, the placeholder has no marker and the second open fetches again |
| Popups.ReopenAfterNavigate | docs/js/viewer.js:308-322 | a popup that showed its shell and was then navigated or reloaded by the user is written afresh by the next open: one more GET, no focus |
| Popups.ReopenAfterClose | docs/js/viewer.js:301-322 | after the user closes the popup, the next open creates it with the computed bounds and fetches again |
| Popups.PollAfterOpenTargetsMainArea | docs/js/viewer.js:289 | because the popup's URL becomes the tracked file, a later poll with a newer time redraws the main content area and leaves the popup as it was |
| Popups.OpenMayRewind | docs/js/viewer.js:329-332 | opening a popup can lower the stored content time |
| Popups.FollowLinkDispatch | docs/js/viewer.js:264-279 | a `.md` link opens its markdown popup; any other link opens one page window beside the sidebar and touches neither the tracking state nor the popups |
| Tracker.SidebarLoaded | docs/js/viewer.js:94-121 | one GET of `sidebar.md` with the clock as cache-buster; only the sidebar time, the sidebar HTML and the request log change, and a failed GET changes neither |
| Tracker.ContentLoaded | docs/js/viewer.js:151-178 | the file is tracked whatever the outcome; one GET with the clock as cache-buster; only the tracked file, content time, content HTML and request log change; a failure keeps the old time and shows the loading line |
| Tracker.WelcomeLoaded | docs/js/viewer.js:136-145 | `welcome.md` is tracked; only the content fields and the request log change; a failure keeps the old time and shows the welcome error block |
| Tracker.Greeted | docs/js/viewer.js:58-89 | the mode's greeting is tracked when it loads, else `welcome.md` after one more request; only the content fields and the request log change |
| Tracker.Initialised | docs/js/viewer.js:33-53 | polling runs exactly when the sidebar loaded (or was already running); success ends with `welcome.md` tracked; failure shows the sidebar error after one request and leaves the content as it was; popups, focus, page windows and alerts are untouched |
| Tracker.SidebarPolled | docs/js/viewer.js:190-214 | one HEAD, and one GET exactly when the HEAD reports a strictly later time; only the sidebar fields and the request log change, and without a later time neither sidebar field does |
| Tracker.ContentPolled | docs/js/viewer.js:219-258 | with no tracked file nothing changes; otherwise only the content time, content HTML and request log change, and without a strictly later HEAD time neither content field does |
| Tracker.MarkdownOpened | docs/js/viewer.js:287-320 | the URL is tracked in every branch; the sidebar, the content area, polling and page windows are untouched |
| Tracker.PopupFetched | docs/js/viewer.js:322-334 | one GET of the URL without a cache-buster; the same windows exist, the fetched popup keeps its title and every other popup is unchanged; tracked file, content area, focus, sidebar, polling and page windows are untouched |
| Tracker.LinkFollowed | docs/js/viewer.js:264-279 | a click never touches the sidebar or the content area; a non-markdown link changes nothing but the page-window log |
| Tracker.WindowNavigated | docs/js/viewer.js:308-310 | after the user navigates or reloads a popup it has the new page's title and no `#content` element, so the reuse test fails; its bounds, every other popup and all other state stay as they were |
| Tracker.WindowClosed | docs/js/viewer.js:301-306 | after the user closes a popup, `window.open` no longer finds it; every other popup and all other state stay as they were |
| Viewer.PopupHost.Open | docs/js/viewer.js:301-306 | `window.open` gives nothing when blocked, else the named window, created blank with the requested bounds when absent |
| Viewer.PopupHost.SetTitle | docs/js/viewer.js:316 | only the named window's title changes |
| Viewer.PopupHost.WriteBody | docs/js/viewer.js:319 | only the named window's document body changes |
| Viewer.PopupHost.Focus | docs/js/viewer.js:311 | the window is appended to the focus order; nothing else changes |
| Viewer.PopupHost.Navigate | docs/js/viewer.js:308-310 | only the named window changes, to a page with the given title and no `#content` element, keeping its bounds |
| Viewer.PopupHost.Close | docs/js/viewer.js:301-306 | the closed window leaves the host's named windows; focus order and page windows are unchanged |
| Viewer.PopupHost.OpenPage | docs/js/viewer.js:464 | an allowed page window is recorded with its URL, name and bounds |
| Viewer.Dashboard.constructor | docs/js/viewer.js:22-27 | both times start at 0 and `welcome.md` is the tracked file |
| Viewer.Dashboard.LoadSidebar | docs/js/viewer.js:94-131 | returns whether the GET succeeded; the state becomes `Tracker.SidebarLoaded` of the old state |
| Viewer.Dashboard.LoadContent | docs/js/viewer.js:151-185 | returns whether the GET succeeded; the state becomes `Tracker.ContentLoaded` of the old state |
| Viewer.Dashboard.LoadWelcomeContent | docs/js/viewer.js:136-145 | the state becomes `Tracker.WelcomeLoaded` of the old state |
| Viewer.Dashboard.CheckModeAndGreet | docs/js/viewer.js:58-89 | the state becomes `Tracker.Greeted` of the old state |
| Viewer.Dashboard.InitDashboard | docs/js/viewer.js:33-53 | the state becomes `Tracker.Initialised` of the old state |
| Viewer.Dashboard.CheckSidebarUpdates | docs/js/viewer.js:190-214 | the state becomes `Tracker.SidebarPolled` of the old state |
| Viewer.Dashboard.CheckContentUpdates | docs/js/viewer.js:219-258 | the state becomes `Tracker.ContentPolled` of the old state |
| Viewer.Dashboard.OpenMarkdownInWindow | docs/js/viewer.js:287-320 | the state becomes `Tracker.MarkdownOpened` of the old state |
| Viewer.Dashboard.FetchIntoPopup | docs/js/viewer.js:322-434 | the state becomes `Tracker.PopupFetched` of the old state |
| Viewer.Dashboard.FollowLink | docs/js/viewer.js:266-278 | the state becomes `Tracker.LinkFollowed` of the old state |

## Left out

- `publishToGitHub` (docs/js/viewer.js:478-594) is left out. It is a confirm dialog, a status popup and one network call with no tracking logic, and it reads two globals the script never defines.
- The markdown renderer and the popup shell's styles and inline script are left out. Rendering is the opaque parameter `render`. The shell is reduced to its file label and rendered content. The shell's `<img>` error fallback is not modelled.
- The timers, and interleaving between async fetches, are left out. Each tick, load and popup open is one atomic step over the fetch results it would receive. Two overlapping requests writing the same area in either order are not modelled.
- Viewer.Dashboard.LoadSidebar, Viewer.Dashboard.LoadContent, Viewer.Dashboard.FetchIntoPopup (and their transitions `Tracker.SidebarLoaded`, `Tracker.ContentLoaded`, `Tracker.PopupFetched`): a GET that succeeds but whose body read (`response.text()`) or render (`marked.parse`) throws is not modelled. The script stores the header time before either step (docs/js/viewer.js:105-113, 170-178, 329-334), so on that path the new time is kept while the old sidebar, the loading line or the popup placeholder stays, and later HEADs reporting that time reload nothing. A success here always renders.
- Tracker.MarkdownOpened, Popups.OpenTwiceFetchesOnce, Popups.OpenReuses: a popup navigated to a page of another origin is not modelled. There, reading `newWindow.document` at docs/js/viewer.js:309 throws after the URL has already become the tracked file (line 289), so nothing is focused, fetched or alerted. The model's popups change only through the script's writes, `WindowClosed` and same-origin `WindowNavigated`, and the reuse lemmas assume no such user action between the opens they relate.
- Parsing the `Last-Modified` header into milliseconds is left out. Header times are integers.
- A header that is present but empty counts as absent (`None`), as the script's truthiness test treats it.
- A header that does not parse gives `NaN` in the script, and every comparison with `NaN` is false. This case is not modelled.
- The `title` is interpolated into the shell's `<title>` without escaping. The model takes the popup's title to be exactly `title`.
- A markdown popup and a page window could share a browser window name. This is not modelled: page windows are logged apart from the named popups.
- `openWindow`'s `try`/`catch` alert is not modelled, because the host call it guards is not modelled beyond the window it opens. A blocked page window is dropped silently, as in the browser.
- `setupNavigation`'s event wiring is left out. Only the decision taken on a click (`Layout.ClickAction`, `Tracker.LinkFollowed`) is modelled.
- Console logging is left out.
- The server script `http_server_nocache.py` is not part of this model. It adds no-cache headers and runs a publish script.
- Mode detection reads `document.title`, `location.href` and a CSS variable. These become the explicit `PageSignals` argument.

=== FILE: dashboard.dfy ===
/**
 * The viewer as the page runs it: the tracking variables and the two page
 * areas are fields of one `Dashboard` object that its operations update step
 * by step, and the browser's named windows are a `PopupHost` object. Each
 * operation is proved to leave the state that its transition in `Tracker`
 * describes.
 */
module Viewer {
  import opened Wrappers
  import opened Text
  import opened Headings
  import opened Layout
  import opened Tracker

  /** The browser's named windows and the plain page windows it has opened. */
  class PopupHost {
    var windows: map<string, PopupDoc>
    var focused: seq<string>
    var pages: seq<PageWindow>

    constructor ()
      ensures windows == map[] && focused == [] && pages == []
    {
      windows, focused, pages := map[], [], [];
    }

    /**
     * `window.open('', name, features)`: nothing when popups are blocked;
     * otherwise the window of that name, created blank with `bounds` when
     * there is none.
     */
    method Open(name: string, bounds: Bounds, allowed: bool) returns (granted: bool)
      modifies this
      ensures granted == allowed
      ensures windows == if allowed && name !in old(windows)
                         then old(windows)[name := PopupDoc("", Blank, bounds)] else old(windows)
      ensures granted ==> name in windows
      ensures focused == old(focused) && pages == old(pages)
    {
      granted := allowed;
      if allowed && name !in windows {
        windows := windows[name := PopupDoc("", Blank, bounds)];
      }
    }

    /** `document.title = title` */
    method SetTitle(name: string, title: string)
      requires name in windows
      modifies this
      ensures windows == old(windows)[name := old(windows)[name].(title := title)]
      ensures focused == old(focused) && pages == old(pages)
    {
      windows := windows[name := windows[name].(title := title)];
    }

    /** Replaces what the window's document shows. */
    method WriteBody(name: string, body: PopupBody)
      requires name in windows
      modifies this
      ensures windows == old(windows)[name := old(windows)[name].(body := body)]
      ensures focused == old(focused) && pages == old(pages)
    {
      windows := windows[name := windows[name].(body := body)];
    }

    method Focus(name: string)
      modifies this
      ensures focused == old(focused) + [name]
      ensures windows == old(windows) && pages == old(pages)
    {
      focused := focused + [name];
    }

    /** `window.open(url, name, features)` for a page that is shown as it is. */
    method OpenPage(url: string, name: string, bounds: Bounds, allowed: bool)
      modifies this
      ensures pages == if allowed then old(pages) + [PageWindow(url, name, bounds)] else old(pages)
      ensures windows == old(windows) && focused == old(focused)
    {
      if allowed {
        pages := pages + [PageWindow(url, name, bounds)];
      }
    }

    /** The user navigates or reloads a window, which now shows a same-origin page titled `pageTitle`. */
    method Navigate(name: string, pageTitle: string)
      modifies this
      ensures windows == if name in old(windows)
                         then old(windows)[name := PopupDoc(pageTitle, Navigated, old(windows)[name].bounds)]
                         else old(windows)
      ensures focused == old(focused) && pages == old(pages)
    {
      if name in windows {
        windows := windows[name := PopupDoc(pageTitle, Navigated, windows[name].bounds)];
      }
    }

    /** The user closes a window. */
    method Close(name: string)
      modifies this
      ensures windows == old(windows) - {name}
      ensures focused == old(focused) && pages == old(pages)
    {
      windows := windows - {name};
    }
  }

  class Dashboard {
    const render: string -> string     // the markdown renderer
    const host: PopupHost
    var lastSidebarModified: int
    var currentContentFile: string
    var lastContentModified: int
    var sidebarHtml: string
    var contentHtml: string
    var polling: bool
    var requests: seq<Request>
    var alerts: seq<Alert>

    /** The page's whole state as one value. */
    function State(): Session
      reads this, host
    {
      Session(lastSidebarModified, currentContentFile, lastContentModified, sidebarHtml, contentHtml, polling,
              host.windows, host.focused, host.pages, requests, alerts)
    }

    constructor (render: string -> string)
      ensures this.render == render && fresh(host)
      ensures State() == InitialSession()
    {
      this.render := render;
      host := new PopupHost();
      lastSidebarModified, currentContentFile, lastContentModified := 0, WelcomeFile, 0;
      sidebarHtml, contentHtml, polling := "", "", false;
      requests, alerts := [], [];
    }

    method LoadSidebar(f: Fetched) returns (ok: bool)
      modifies this
      ensures ok == f.response.ok
      ensures State() == SidebarLoaded(old(State()), render, f)
    {
      requests := requests + [Request(SidebarFile, Get, Some(f.clock))];
      if !f.response.ok {
        return false;
      }
      if f.response.lastModified.Some? {
        lastSidebarModified := f.response.lastModified.value;
      } else {
        lastSidebarModified := f.clock;
      }
      var html := render(f.response.body);
      sidebarHtml := SidebarHeadings(html);
      ok := true;
    }

    method LoadContent(file: string, f: Fetched) returns (ok: bool)
      modifies this
      ensures ok == f.response.ok
      ensures State() == ContentLoaded(old(State()), render, file, f)
    {
      contentHtml := LoadingHtml(file);
      currentContentFile := file;
      requests := requests + [Request(file, Get, Some(f.clock))];
      if !f.response.ok {
        return false;
      }
      if f.response.lastModified.Some? {
        lastContentModified := f.response.lastModified.value;
      } else {
        lastContentModified := f.clock;
      }
      contentHtml := render(f.response.body);
      ok := true;
    }

    method LoadWelcomeContent(f: Fetched)
      modifies this
      ensures State() == WelcomeLoaded(old(State()), render, f)
    {
      var ok := LoadContent(WelcomeFile, f);
      if !ok {
        contentHtml := WelcomeErrorHtml;
      }
    }

    method CheckModeAndGreet(page: PageSignals, greeting: Fetched, fallback: Fetched)
      modifies this
      ensures State() == Greeted(old(State()), render, page, greeting, fallback)
    {
      var greetingFile := WelcomeFile;
      if IsAuthorMode(page) {
        greetingFile := AuthorGreeting;
      } else if IsDevMode(page) {
        greetingFile := DevGreeting;
      }
      var ok := LoadContent(greetingFile, greeting);
      if !ok {
        LoadWelcomeContent(fallback);
      }
    }

    method InitDashboard(sidebar: Fetched, page: PageSignals, greeting: Fetched, fallback: Fetched, welcome: Fetched)
      modifies this
      ensures State() == Initialised(old(State()), render, sidebar, page, greeting, fallback, welcome)
    {
      var ok := LoadSidebar(sidebar);
      if !ok {
        sidebarHtml := SidebarErrorHtml;
        return;
      }
      CheckModeAndGreet(page, greeting, fallback);
      LoadWelcomeContent(welcome);
      polling := true;
    }

    method CheckSidebarUpdates(head: Response, tick: int, reload: Fetched)
      modifies this
      ensures State() == SidebarPolled(old(State()), render, head, tick, reload)
    {
      requests := requests + [Request(SidebarFile, Head, Some(tick))];
      if !head.ok {
        return;
      }
      if head.lastModified.Some? {
        var modifiedTime := head.lastModified.value;
        if modifiedTime > lastSidebarModified {
          var _ := LoadSidebar(reload);
        }
      }
    }

    method CheckContentUpdates(head: Response, tick: int, reload: Fetched)
      modifies this
      ensures State() == ContentPolled(old(State()), render, head, tick, reload)
    {
      if currentContentFile == "" {
        return;
      }
      requests := requests + [Request(currentContentFile, Head, Some(tick))];
      if !head.ok || head.lastModified.None? {
        return;
      }
      var modifiedTime := head.lastModified.value;
      if modifiedTime > lastContentModified {
        if currentContentFile == WelcomeFile {
          LoadWelcomeContent(reload);
        } else if EndsWith(currentContentFile, ".md") {
          requests := requests + [Request(currentContentFile, Get, Some(tick))];
          if reload.response.ok {
            contentHtml := render(reload.response.body);
            lastContentModified := modifiedTime;
          }
        }
      }
    }

    method OpenMarkdownInWindow(url: string, title: string, sc: Screen, allowed: bool, response: Response)
      modifies this, host
      ensures State() == MarkdownOpened(old(State()), render, url, title, sc, allowed, response)
    {
      ghost var s := State();
      currentContentFile := url;
      var name := WindowName(url);
      var granted := host.Open(name, PopupBounds(sc), allowed);
      if !granted {
        alerts := alerts + [PopupBlocked];
        return;
      }
      var doc := host.windows[name];
      assert doc == if name in s.windows then s.windows[name] else PopupDoc("", Blank, PopupBounds(sc));
      if HasContentMarker(doc) && doc.title == title {
        host.Focus(name);
        assert host.windows == s.windows;
        return;
      }
      host.SetTitle(name, title);
      host.WriteBody(name, Loading);
      assert host.windows == s.windows[name := doc.(title := title, body := Loading)];
      assert State() == s.(currentContentFile := url, windows := s.windows[name := doc.(title := title, body := Loading)]);
      FetchIntoPopup(url, name, response);
    }

    /** The fetch started by `OpenMarkdownInWindow` and what its continuation writes. */
    method FetchIntoPopup(url: string, name: string, response: Response)
      requires name in host.windows
      modifies this, host
      ensures State() == PopupFetched(old(State()), render, url, name, response)
    {
      ghost var s := State();
      requests := requests + [Request(url, Get, None)];
      ghost var s1 := s.(requests := s.requests + [Request(url, Get, None)]);
      assert State() == s1;
      if !response.ok {
        alerts := alerts + [OpenFailed(url)];
        return;
      }
      if response.lastModified.Some? {
        lastContentModified := response.lastModified.value;
      }
      ghost var s2 := if response.lastModified.Some? then s1.(lastContentModified := response.lastModified.value) else s1;
      assert State() == s2;
      host.WriteBody(name, Shell(LastSegment(url), render(response.body)));
      assert host.windows == s.windows[name := s.windows[name].(body := Shell(LastSegment(url), render(response.body)))];
    }

    method FollowLink(url: string, title: string, sc: Screen, sidebarWidth: int, allowed: bool, response: Response)
      modifies this, host
      ensures State() == LinkFollowed(old(State()), render, url, title, sc, sidebarWidth, allowed, response)
    {
      if EndsWith(url, ".md") {
        OpenMarkdownInWindow(url, title, sc, allowed, response);
      } else {
        host.OpenPage(url, title, PageBounds(sc, sidebarWidth), allowed);
      }
    }
  }
}

=== FILE: freshness.dfy ===
/**
 * What the full loads and the two polls do to the tracked times and the
 * display: full loads overwrite, polls reload only on a strictly later time,
 * and a poll that learns nothing changes nothing but its own request.
 */
module Freshness {
  import opened Wrappers
  import opened Text
  import opened Headings
  import opened Layout
  import opened Tracker

  /** Everything but the request log is as before, and the log grew by exactly `sent`. */
  predicate OnlySent(s: Session, t: Session, sent: seq<Request>) {
    t == s.(requests := s.requests + sent)
  }

  // ---------------------------------------------------------------------------
  // Full loads
  // ---------------------------------------------------------------------------

  /**
   * A successful sidebar load overwrites the stored time with the header's,
   * or with its own clock when the header is missing; a failed one stores
   * nothing and leaves the sidebar as it was.
   */
  lemma SidebarLoadStoresTime(s: Session, render: string -> string, f: Fetched)
    ensures var t := SidebarLoaded(s, render, f);
      && (f.response.ok && f.response.lastModified.Some? ==> t.lastSidebarModified == f.response.lastModified.value)
      && (f.response.ok && f.response.lastModified.None? ==> t.lastSidebarModified == f.clock)
      && (f.response.ok ==> t.sidebarHtml == SidebarHeadings(render(f.response.body)))
      && (!f.response.ok ==> OnlySent(s, t, [Request(SidebarFile, Get, Some(f.clock))]))
  {
  }

  /**
   * `loadContent` switches the tracked file and shows the loading line before
   * it fetches: after a failed load the new file is tracked, the loading line
   * stays and the stored time is the old one.
   */
  lemma ContentLoadSwitchesFirst(s: Session, render: string -> string, file: string, f: Fetched)
    ensures var t := ContentLoaded(s, render, file, f);
      && t.currentContentFile == file
      && t.requests == s.requests + [Request(file, Get, Some(f.clock))]
      && (!f.response.ok ==> t.contentHtml == LoadingHtml(file) && t.lastContentModified == s.lastContentModified)
      && (f.response.ok ==> t.contentHtml == render(f.response.body)
                            && t.lastContentModified == StoredTime(f.response, f.clock))
      && t.sidebarHtml == s.sidebarHtml && t.lastSidebarModified == s.lastSidebarModified
      && t.windows == s.windows
  {
  }

  /**
   * Start-up: when the sidebar loads, the polls start and the welcome page is
   * the tracked and shown file whatever greeting the mode chose; when it
   * fails, the sidebar shows the error and nothing else is loaded.
   */
  lemma GreetingOverwritten(render: string -> string, sidebar: Fetched, page: PageSignals,
                            greeting: Fetched, fallback: Fetched, welcome: Fetched)
    ensures var t := Initialised(InitialSession(), render, sidebar, page, greeting, fallback, welcome);
      && (sidebar.response.ok ==>
            && t.polling && t.currentContentFile == WelcomeFile
            && t.contentHtml == (if welcome.response.ok then render(welcome.response.body) else WelcomeErrorHtml)
            && t.lastSidebarModified == StoredTime(sidebar.response, sidebar.clock)
            && t.lastContentModified == (if welcome.response.ok then StoredTime(welcome.response, welcome.clock)
                                         else if greeting.response.ok then StoredTime(greeting.response, greeting.clock)
                                         else if fallback.response.ok then StoredTime(fallback.response, fallback.clock)
                                         else 0))
      && (!sidebar.response.ok ==>
            && !t.polling && t.sidebarHtml == SidebarErrorHtml
            && t.currentContentFile == WelcomeFile && t.contentHtml == ""
            && t.requests == [Request(SidebarFile, Get, Some(sidebar.clock))])
  {
  }

  /** Start-up sends the greeting's GET first and the welcome page's GET last. */
  lemma GreetingRequestedFirst(render: string -> string, sidebar: Fetched, page: PageSignals,
                               greeting: Fetched, fallback: Fetched, welcome: Fetched)
    requires sidebar.response.ok
    ensures var t := Initialised(InitialSession(), render, sidebar, page, greeting, fallback, welcome);
      && |t.requests| >= 3
      && t.requests[1] == Request(GreetingFile(page), Get, Some(greeting.clock))
      && t.requests[|t.requests| - 1] == Request(WelcomeFile, Get, Some(welcome.clock))
  {
  }

  // ---------------------------------------------------------------------------
  // Sidebar poll
  // ---------------------------------------------------------------------------

  /**
   * A sidebar poll that fails, has no `Last-Modified`, or reports a time that
   * is equal or older causes no reload and no change beyond its HEAD request.
   */
  lemma SidebarPollNoChange(s: Session, render: string -> string, head: Response, tick: int, reload: Fetched)
    requires !head.ok || head.lastModified.None? || head.lastModified.value <= s.lastSidebarModified
    ensures OnlySent(s, SidebarPolled(s, render, head, tick, reload), [Request(SidebarFile, Head, Some(tick))])
  {
  }

  /**
   * A sidebar poll with a strictly later time sends exactly one GET after its
   * HEAD; when that GET succeeds the sidebar is redrawn and its time stored.
   */
  lemma SidebarPollReloads(s: Session, render: string -> string, head: Response, tick: int, reload: Fetched)
    requires head.ok && head.lastModified.Some? && head.lastModified.value > s.lastSidebarModified
    ensures var t := SidebarPolled(s, render, head, tick, reload);
      && t.requests == s.requests + [Request(SidebarFile, Head, Some(tick)), Request(SidebarFile, Get, Some(reload.clock))]
      && (reload.response.ok ==>
            t.lastSidebarModified == StoredTime(reload.response, reload.clock)
            && t.sidebarHtml == SidebarHeadings(render(reload.response.body)))
      && (!reload.response.ok ==> t.lastSidebarModified == s.lastSidebarModified && t.sidebarHtml == s.sidebarHtml)
      && t.currentContentFile == s.currentContentFile && t.contentHtml == s.contentHtml
      && t.lastContentModified == s.lastContentModified && t.windows == s.windows
  {
  }

  /**
   * When the reload's `Last-Modified` is present and no earlier than the
   * HEAD's that triggered it, a sidebar poll never lowers the stored time,
   * and raises it whenever it redraws.
   */
  lemma SidebarPollAdvances(s: Session, render: string -> string, head: Response, tick: int, reload: Fetched)
    requires head.lastModified.Some? ==> reload.response.lastModified.Some?
                                         && reload.response.lastModified.value >= head.lastModified.value
    ensures var t := SidebarPolled(s, render, head, tick, reload);
      && t.lastSidebarModified >= s.lastSidebarModified
      && (t.sidebarHtml != s.sidebarHtml ==> t.lastSidebarModified > s.lastSidebarModified)
      && (IsNewer(head, s.lastSidebarModified) && reload.response.ok ==> t.lastSidebarModified > s.lastSidebarModified)
  {
  }

  /**
   * Without that agreement the stored time can go back: a reload without a
   * header stores its own clock, which may be earlier than the time stored.
   */
  lemma SidebarPollMayRewind(render: string -> string)
    ensures var s := InitialSession().(lastSidebarModified := 100);
      SidebarPolled(s, render, Response(true, Some(200), ""), 40, Fetched(Response(true, None, "x"), 50))
        .lastSidebarModified == 50
  {
  }

  // ---------------------------------------------------------------------------
  // Content poll
  // ---------------------------------------------------------------------------

  /** With no tracked file the content poll returns at once: nothing is sent and nothing changes. */
  lemma ContentPollIdle(s: Session, render: string -> string, head: Response, tick: int, reload: Fetched)
    requires s.currentContentFile == ""
    ensures ContentPolled(s, render, head, tick, reload) == s
  {
  }

  /**
   * A content poll that fails, has no `Last-Modified`, or reports a time that
   * is equal or older changes nothing beyond its HEAD request.
   */
  lemma ContentPollNoChange(s: Session, render: string -> string, head: Response, tick: int, reload: Fetched)
    requires s.currentContentFile != ""
    requires !head.ok || head.lastModified.None? || head.lastModified.value <= s.lastContentModified
    ensures OnlySent(s, ContentPolled(s, render, head, tick, reload),
                     [Request(s.currentContentFile, Head, Some(tick))])
  {
  }

  /**
   * For a tracked `.md` file other than `welcome.md`, a later time makes the
   * poll GET the file with the same cache-buster; a successful GET redraws the
   * content area and stores exactly the polled time, which is strictly larger;
   * a failed one changes nothing beyond the two requests.
   */
  lemma ContentPollMarkdown(s: Session, render: string -> string, head: Response, tick: int, reload: Fetched)
    requires s.currentContentFile != WelcomeFile && EndsWith(s.currentContentFile, ".md")
    requires IsNewer(head, s.lastContentModified)
    ensures var file := s.currentContentFile;
      var sent := [Request(file, Head, Some(tick)), Request(file, Get, Some(tick))];
      var t := ContentPolled(s, render, head, tick, reload);
      && (reload.response.ok ==>
            && t.lastContentModified == head.lastModified.value > s.lastContentModified
            && t == s.(requests := s.requests + sent, contentHtml := render(reload.response.body),
                       lastContentModified := head.lastModified.value))
      && (!reload.response.ok ==> OnlySent(s, t, sent))
  {
  }

  /** A tracked file ending in neither `.md` nor being `welcome.md` is never reloaded. */
  lemma ContentPollOtherFile(s: Session, render: string -> string, head: Response, tick: int, reload: Fetched)
    requires s.currentContentFile != "" && !EndsWith(s.currentContentFile, ".md")
    ensures OnlySent(s, ContentPolled(s, render, head, tick, reload),
                     [Request(s.currentContentFile, Head, Some(tick))])
  {
  }

  /**
   * For `welcome.md` a later time goes through the welcome load: on success
   * the stored time is the reload's own (header or clock), not the polled
   * one; on failure the content area shows the welcome error block.
   */
  lemma ContentPollWelcome(s: Session, render: string -> string, head: Response, tick: int, reload: Fetched)
    requires s.currentContentFile == WelcomeFile && IsNewer(head, s.lastContentModified)
    ensures var t := ContentPolled(s, render, head, tick, reload);
      && t.requests == s.requests + [Request(WelcomeFile, Head, Some(tick)), Request(WelcomeFile, Get, Some(reload.clock))]
      && t.currentContentFile == WelcomeFile
      && (reload.response.ok ==> t.lastContentModified == StoredTime(reload.response, reload.clock)
                                 && t.contentHtml == render(reload.response.body))
      && (!reload.response.ok ==> t.lastContentModified == s.lastContentModified && t.contentHtml == WelcomeErrorHtml)
  {
  }

  /**
   * On `welcome.md` the stored time can go back: the reload goes through the
   * welcome load, which stores its own clock when the GET has no header.
   */
  lemma ContentPollWelcomeMayRewind(render: string -> string)
    ensures var s := InitialSession().(lastContentModified := 100);
      ContentPolled(s, render, Response(true, Some(200), ""), 40, Fetched(Response(true, None, "x"), 50))
        .lastContentModified == 50
  {
  }

  /** Outside `welcome.md` the content poll only ever raises the stored time. */
  lemma ContentPollAdvances(s: Session, render: string -> string, head: Response, tick: int, reload: Fetched)
    requires s.currentContentFile != WelcomeFile
    ensures ContentPolled(s, render, head, tick, reload).lastContentModified >= s.lastContentModified
  {
  }

  /**
   * The scenario of two sidebar ticks after a load at time `t1`: the same
   * time again causes no reload; a later `t2` causes exactly one GET and
   * leaves `t2` stored.
   */
  lemma {:induction false} SidebarTwoTicks(s: Session, render: string -> string, t1: int, t2: int,
                                           tick1: int, tick2: int, reload: Fetched)
    requires s.lastSidebarModified == t1 && t1 < t2
    requires reload.response == Response(true, Some(t2), "updated")
    ensures var a := SidebarPolled(s, render, Response(true, Some(t1), ""), tick1, reload);
      var b := SidebarPolled(a, render, Response(true, Some(t2), ""), tick2, reload);
      && a.lastSidebarModified == t1 && a.sidebarHtml == s.sidebarHtml
      && b.lastSidebarModified == t2
      && b.sidebarHtml == SidebarHeadings(render("updated"))
      && b.requests == s.requests + [Request(SidebarFile, Head, Some(tick1)), Request(SidebarFile, Head, Some(tick2)),
                                     Request(SidebarFile, Get, Some(reload.clock))]
  {
    var a := SidebarPolled(s, render, Response(true, Some(t1), ""), tick1, reload);
    SidebarPollNoChange(s, render, Response(true, Some(t1), ""), tick1, reload);
    SidebarPollReloads(a, render, Response(true, Some(t2), ""), tick2, reload);
  }
}

=== FILE: headings.dfy ===
/**
 * The post-processing the sidebar applies to the renderer's output: every
 * single-line `<h1>…</h1>` becomes a `sidebar-title` block, and then every
 * single-line `<h2>…</h2>` becomes a `section-title` block. Each pass is a
 * global replace of a regular expression `<hN>(.*?)</hN>`: the match is
 * non-greedy and `.` does not cross a line terminator.
 */
module Headings {
  import opened Wrappers
  import opened Text

  /** The characters a regular-expression `.` does not match. */
  predicate IsLineTerminator(c: char) {
    c == '\n' || c == '\r' || c == '\U{2028}' || c == '\U{2029}'
  }

  /** A match of `<open>(.*?)<close>`: the captured text and what follows the `close`. */
  datatype Match = Match(text: string, rest: string)

  lemma PrefixSplit(s: string, p: string)
    requires StartsWith(s, p)
    ensures s == [] + p + s[|p|..]
  {
    StartsWithSplit(s, p);
  }

  lemma ConsSplit(s: string, text: string, close: string, rest: string)
    requires |s| > 0 && s[1..] == text + close + rest
    ensures s == [s[0]] + text + close + rest
  {
    assert s == [s[0]] + s[1..];
  }

  /**
   * Where the lazy group `(.*?)` followed by `close` ends its match at the
   * start of `s`: at the first `close`, provided no line terminator comes
   * before it; `None` when a line terminator or the end of `s` comes first.
   * The result splits `s` into the captured text, `close`, and the rest.
   */
  function FindClose(s: string, close: string): (r: Option<Match>)
    ensures r.Some? ==> s == r.value.text + close + r.value.rest
  {
    if StartsWith(s, close) then
      PrefixSplit(s, close);
      Some(Match([], s[|close|..]))
    else if |s| == 0 || IsLineTerminator(s[0]) then None
    else match FindClose(s[1..], close)
      case None => None
      case Some(m) =>
        ConsSplit(s, m.text, close, m.rest);
        Some(Match([s[0]] + m.text, m.rest))
  }

  /**
   * The match `FindClose` reports is the lazy one: its text holds no line
   * terminator, and no `close` starts anywhere before its end.
   */
  lemma {:induction false} FindCloseFirst(s: string, close: string)
    requires FindClose(s, close).Some?
    ensures forall k :: 0 <= k < |FindClose(s, close).value.text| ==> !IsLineTerminator(FindClose(s, close).value.text[k])
    ensures forall k :: 0 <= k < |FindClose(s, close).value.text| ==> !StartsWith(s[k..], close)
  {
    if !StartsWith(s, close) {
      var m := FindClose(s[1..], close).value;
      FindCloseFirst(s[1..], close);
      var text := FindClose(s, close).value.text;
      assert text == [s[0]] + m.text;
      forall k | 0 <= k < |text|
        ensures !IsLineTerminator(text[k]) && !StartsWith(s[k..], close)
      {
        if k == 0 {
          assert s[k..] == s;
        } else {
          assert text[k] == m.text[k - 1];
          assert s[k..] == s[1..][k - 1..];
        }
      }
    }
  }

  /**
   * The match of `<open>(.*?)<close>` starting at the front of `s`, or `None`
   * when none starts here: `s` is `open`, the captured text, `close`, and the rest.
   */
  function MatchAt(s: string, open: string, close: string): (r: Option<Match>)
    ensures r.Some? ==> s == open + r.value.text + close + r.value.rest
    ensures !StartsWith(s, open) ==> r.None?
  {
    if StartsWith(s, open) then
      match FindClose(s[|open|..], close)
      case Some(m) =>
        assert s == open + (m.text + close + m.rest);
        Some(m)
      case None => None
    else None
  }

  /**
   * `s.replace(/<open>(.*?)<close>/g, before + '$1' + after)`: scanning left to
   * right, each match is replaced and scanning resumes after it; where no
   * match starts, the character is kept and scanning moves on by one.
   */
  function ReplaceTag(s: string, open: string, close: string, before: string, after: string): string
    requires |open| > 0
    decreases |s|
  {
    if |s| == 0 then []
    else match MatchAt(s, open, close)
      case Some(m) => before + m.text + after + ReplaceTag(m.rest, open, close, before, after)
      case None => [s[0]] + ReplaceTag(s[1..], open, close, before, after)
  }

  const SidebarTitleOpen := "<div class=\"sidebar-title\">"
  const SectionTitleOpen := "<div class=\"section-title\">"
  const DivClose := "</div>"

  /** The sidebar's rewrite of rendered HTML: level-1 headings first, then level-2. */
  function SidebarHeadings(html: string): string {
    var titled := ReplaceTag(html, "<h1>", "</h1>", SidebarTitleOpen, DivClose);
    ReplaceTag(titled, "<h2>", "</h2>", SectionTitleOpen, DivClose)
  }

  /**
   * The lazy group stops at the first `close`: if `t` is on one line and holds
   * no `close`, the match over `t + close + rest` captures exactly `t`.
   */
  lemma {:induction false} FindCloseAfter(t: string, close: string, rest: string)
    requires forall k :: 0 <= k < |t| ==> !IsLineTerminator(t[k])
    requires forall k :: 0 <= k < |t| ==> !StartsWith(t[k..] + close + rest, close)
    ensures FindClose(t + close + rest, close) == Some(Match(t, rest))
  {
    var s := t + close + rest;
    if t == [] {
      assert s[..|close|] == close;
      assert s[|close|..] == rest;
    } else {
      assert !StartsWith(t[0..] + close + rest, close);
      assert t[0..] == t;
      var t' := t[1..];
      assert s[1..] == t' + close + rest;
      forall k | 0 <= k < |t'|
        ensures !StartsWith(t'[k..] + close + rest, close)
      {
        assert t'[k..] == t[k + 1..];
      }
      FindCloseAfter(t', close, rest);
      assert [s[0]] + t' == t;
    }
  }

  /** One replacement step: a match at the front is replaced and scanning resumes after it. */
  lemma ReplaceTagMatch(s: string, m: Match, open: string, close: string, before: string, after: string)
    requires |open| > 0 && MatchAt(s, open, close) == Some(m)
    ensures ReplaceTag(s, open, close, before, after) == before + m.text + after + ReplaceTag(m.rest, open, close, before, after)
  {
  }

  /** One step where no match starts: the first character is kept and scanning moves on by one. */
  lemma ReplaceTagKeep(s: string, open: string, close: string, before: string, after: string)
    requires |open| > 0 && |s| > 0 && !StartsWith(s, open)
    ensures ReplaceTag(s, open, close, before, after) == [s[0]] + ReplaceTag(s[1..], open, close, before, after)
  {
  }

  /** A match starts at the front of `s` exactly where `open` is followed by a completed lazy group. */
  lemma MatchFromClose(s: string, m: Match, open: string, close: string)
    requires StartsWith(s, open) && FindClose(s[|open|..], close) == Some(m)
    ensures MatchAt(s, open, close) == Some(m)
  {
  }

  /** A single-line heading at the front of `s` is a match that ends right after its text. */
  lemma HeadingMatches(t: string, rest: string, open: string, close: string)
    requires forall k :: 0 <= k < |t| ==> !IsLineTerminator(t[k])
    requires forall k :: 0 <= k < |t| ==> !StartsWith(t[k..] + close + rest, close)
    ensures MatchAt(open + t + close + rest, open, close) == Some(Match(t, rest))
  {
    var s := open + t + close + rest;
    assert s[..|open|] == open;
    assert s[|open|..] == t + close + rest;
    FindCloseAfter(t, close, rest);
    MatchFromClose(s, Match(t, rest), open, close);
  }

  /** A single-line heading at the front is replaced, its text kept between the new tags. */
  lemma ReplaceTagHeading(t: string, rest: string, open: string, close: string, before: string, after: string)
    requires |open| > 0
    requires forall k :: 0 <= k < |t| ==> !IsLineTerminator(t[k])
    requires forall k :: 0 <= k < |t| ==> !StartsWith(t[k..] + close + rest, close)
    ensures ReplaceTag(open + t + close + rest, open, close, before, after)
         == before + t + after + ReplaceTag(rest, open, close, before, after)
  {
    HeadingMatches(t, rest, open, close);
    ReplaceTagMatch(open + t + close + rest, Match(t, rest), open, close, before, after);
  }

  /**
   * The lazy group does not cross a line: when a line terminator comes before
   * any `close`, there is no match.
   */
  lemma {:induction false} FindCloseStopsAtLine(t: string, c: char, rest: string, close: string)
    requires IsLineTerminator(c)
    requires forall k :: 0 <= k < |t| ==> !IsLineTerminator(t[k])
    requires forall k :: 0 <= k <= |t| ==> !StartsWith((t + [c] + rest)[k..], close)
    ensures FindClose(t + [c] + rest, close).None?
    decreases |t|
  {
    var s := t + [c] + rest;
    assert s[0..] == s;
    if |t| == 0 {
      assert s[0] == c;
    } else {
      var u := t[1..] + [c] + rest;
      assert s[1..] == u;
      forall k | 0 <= k <= |t[1..]|
        ensures !StartsWith(u[k..], close)
      {
        assert u[k..] == s[k + 1..];
      }
      FindCloseStopsAtLine(t[1..], c, rest, close);
      assert s[0] == t[0];
    }
  }

  /**
   * An opening tag whose line ends before any `close` is not a match: the
   * global replace keeps its first character as text and moves on.
   */
  lemma UnclosedTagKept(open: string, t: string, c: char, rest: string, close: string, before: string, after: string)
    requires |open| > 0 && IsLineTerminator(c)
    requires forall k :: 0 <= k < |t| ==> !IsLineTerminator(t[k])
    requires forall k :: 0 <= k <= |t| ==> !StartsWith((t + [c] + rest)[k..], close)
    ensures MatchAt(open + t + [c] + rest, open, close).None?
    ensures ReplaceTag(open + t + [c] + rest, open, close, before, after)
         == [open[0]] + ReplaceTag((open + t + [c] + rest)[1..], open, close, before, after)
  {
    var s := open + t + [c] + rest;
    assert s[..|open|] == open;
    assert s[|open|..] == t + [c] + rest;
    FindCloseStopsAtLine(t, c, rest, close);
  }

  /** Where no opening tag starts in `a`, none starts in its tail either, nor at its front. */
  lemma NoOpenInTail(a: string, b: string, open: string)
    requires |a| > 0
    requires forall k :: 0 <= k < |a| ==> !StartsWith((a + b)[k..], open)
    ensures !StartsWith(a + b, open)
    ensures forall k :: 0 <= k < |a[1..]| ==> !StartsWith((a[1..] + b)[k..], open)
  {
    assert (a + b)[0..] == a + b;
    forall k | 0 <= k < |a[1..]|
      ensures !StartsWith((a[1..] + b)[k..], open)
    {
      assert (a[1..] + b)[k..] == (a + b)[k + 1..];
    }
  }

  /** Text in which no opening tag starts passes through a prefix unchanged. */
  lemma {:induction false} ReplaceTagSkips(a: string, b: string, open: string, close: string, before: string, after: string)
    requires |open| > 0
    requires forall k :: 0 <= k < |a| ==> !StartsWith((a + b)[k..], open)
    ensures ReplaceTag(a + b, open, close, before, after) == a + ReplaceTag(b, open, close, before, after)
  {
    if a != [] {
      var s := a + b;
      NoOpenInTail(a, b, open);
      ReplaceTagSkips(a[1..], b, open, close, before, after);
      ReplaceTagKeep(s, open, close, before, after);
      assert s[1..] == a[1..] + b;
      assert [a[0]] + (a[1..] + ReplaceTag(b, open, close, before, after)) == a + ReplaceTag(b, open, close, before, after);
    } else {
      assert a + b == b;
    }
  }

  /** HTML without any opening tag is left exactly as it was. */
  lemma ReplaceTagIdentity(s: string, open: string, close: string, before: string, after: string)
    requires |open| > 0
    requires forall k :: 0 <= k < |s| ==> !StartsWith(s[k..], open)
    ensures ReplaceTag(s, open, close, before, after) == s
  {
    assert s + [] == s;
    ReplaceTagSkips(s, [], open, close, before, after);
  }

  /** A string that differs from `p` at some position of `p` does not start with `p`. */
  lemma NotStartsWithAt(y: string, p: string, i: nat)
    requires i < |y| && i < |p| && y[i] != p[i]
    ensures !StartsWith(y, p)
  {
    if |p| <= |y| {
      assert y[..|p|][i] == y[i];
    }
  }

  /**
   * In `<d…</…` where no other `<` occurs, every `<` is followed by `d` or
   * `/`, so no level-2 heading starts anywhere.
   */
  lemma NoSectionTag(m: string, e: string)
    requires '<' !in m && '<' !in e
    ensures forall k :: 0 <= k < |"<d" + m + "</" + e| ==> !StartsWith(("<d" + m + "</" + e)[k..], "<h2>")
  {
    var x := "<d" + m + "</" + e;
    forall k | 0 <= k < |x|
      ensures !StartsWith(x[k..], "<h2>")
    {
      if k == 0 || k == |m| + 2 {
        assert x[k + 1] != 'h';
        NotStartsWithAt(x[k..], "<h2>", 1);
      } else {
        assert x[k] != '<';
        NotStartsWithAt(x[k..], "<h2>", 0);
      }
    }
  }

  /** Text none of whose characters can begin `close` holds no `close`. */
  lemma NoCloseBefore(t: string, close: string, rest: string)
    requires |close| > 0 && forall k :: 0 <= k < |t| ==> t[k] != close[0]
    ensures forall k :: 0 <= k < |t| ==> !StartsWith(t[k..] + close + rest, close)
  {
    forall k | 0 <= k < |t|
      ensures !StartsWith(t[k..] + close + rest, close)
    {
      assert (t[k..] + close + rest)[0] == t[k];
      NotStartsWithAt(t[k..] + close + rest, close, 0);
    }
  }

  /** The level-1 pass turns a single-line heading with no `<` in its text into the title div. */
  lemma TitlePass(t: string)
    requires forall k :: 0 <= k < |t| ==> !IsLineTerminator(t[k]) && t[k] != '<'
    ensures ReplaceTag("<h1>" + t + "</h1>", "<h1>", "</h1>", SidebarTitleOpen, DivClose) == SidebarTitleOpen + t + DivClose
  {
    NoCloseBefore(t, "</h1>", []);
    ReplaceTagHeading(t, [], "<h1>", "</h1>", SidebarTitleOpen, DivClose);
    assert "<h1>" + t + "</h1>" + [] == "<h1>" + t + "</h1>";
    assert SidebarTitleOpen + t + DivClose + [] == SidebarTitleOpen + t + DivClose;
  }

  /** No level-2 heading starts anywhere in a title div whose text has no `<`. */
  lemma TitleHasNoSectionTag(t: string)
    requires '<' !in t
    ensures forall k :: 0 <= k < |SidebarTitleOpen + t + DivClose| ==> !StartsWith((SidebarTitleOpen + t + DivClose)[k..], "<h2>")
  {
    var r := "iv class=\"sidebar-title\">";
    assert SidebarTitleOpen == "<d" + r && '<' !in r;
    assert DivClose == "</" + "div>" && '<' !in "div>";
    assert SidebarTitleOpen + t + DivClose == "<d" + (r + t) + "</" + "div>";
    NoSectionTag(r + t, "div>");
  }

  /** The level-2 pass leaves a title div whose text has no `<` as it is. */
  lemma SectionPassKeepsTitle(t: string)
    requires '<' !in t
    ensures ReplaceTag(SidebarTitleOpen + t + DivClose, "<h2>", "</h2>", SectionTitleOpen, DivClose) == SidebarTitleOpen + t + DivClose
  {
    TitleHasNoSectionTag(t);
    ReplaceTagIdentity(SidebarTitleOpen + t + DivClose, "<h2>", "</h2>", SectionTitleOpen, DivClose);
  }

  /**
   * A rendered level-1 heading whose text is on one line and holds no `<`
   * comes out of the sidebar rewrite as exactly the `sidebar-title` div
   * around that text.
   */
  lemma SidebarHeadingsTitle(t: string)
    requires forall k :: 0 <= k < |t| ==> !IsLineTerminator(t[k]) && t[k] != '<'
    ensures SidebarHeadings("<h1>" + t + "</h1>") == SidebarTitleOpen + t + DivClose
  {
    TitlePass(t);
    SectionPassKeepsTitle(t);
  }
}

=== FILE: layout.dfy ===
/**
 * Decisions the viewer takes from the page and the screen: which greeting
 * file matches the page's mode, where a popup is placed, and whether a
 * sidebar link is rendered in a markdown popup or opened as a plain page.
 */
module Layout {
  import opened Text

  // ---------------------------------------------------------------------------
  // Mode and greeting
  // ---------------------------------------------------------------------------

  /** What the page exposes for mode detection: its title, its address and the theme colour. */
  datatype PageSignals = PageSignals(title: string, href: string, themeColor: string)

  predicate IsAuthorMode(p: PageSignals) {
    Contains(p.title, "Author Mode") || Contains(p.href, "author-mode") || p.themeColor == "#4CAF50"
  }

  predicate IsDevMode(p: PageSignals) {
    Contains(p.title, "Development Mode") || Contains(p.href, "development-mode") || p.themeColor == "#2196F3"
  }

  /** A page titled with "Author Mode" anywhere in it loads the author greeting. */
  lemma AuthorTitleGreets(p: PageSignals, a: string, b: string)
    requires p.title == a + "Author Mode" + b
    ensures IsAuthorMode(p) && GreetingFile(p) == AuthorGreeting
  {
    ContainsInfix(a, "Author Mode", b);
  }

  /**
   * An address with "development-mode" in it is detected as Development Mode;
   * it loads the dev greeting unless Author Mode is detected too.
   */
  lemma DevAddressGreets(p: PageSignals, a: string, b: string)
    requires p.href == a + "development-mode" + b
    ensures IsDevMode(p)
    ensures GreetingFile(p) == (if IsAuthorMode(p) then AuthorGreeting else DevGreeting)
  {
    ContainsInfix(a, "development-mode", b);
  }

  const WelcomeFile := "welcome.md"
  const AuthorGreeting := "author_greeting.md"
  const DevGreeting := "dev_greeting.md"

  /**
   * The greeting loaded at start-up: Author Mode wins whenever it is detected,
   * Development Mode only when Author Mode is not, and the welcome page when
   * neither is.
   */
  function GreetingFile(p: PageSignals): (f: string)
    ensures f == AuthorGreeting <==> IsAuthorMode(p)
    ensures f == DevGreeting <==> !IsAuthorMode(p) && IsDevMode(p)
    ensures f == WelcomeFile <==> !IsAuthorMode(p) && !IsDevMode(p)
  {
    if IsAuthorMode(p) then AuthorGreeting
    else if IsDevMode(p) then DevGreeting
    else WelcomeFile
  }

  // ---------------------------------------------------------------------------
  // Window geometry
  // ---------------------------------------------------------------------------

  /** `window.screen.width/height` and the browser window's own `screenX/screenY`. */
  datatype Screen = Screen(width: int, height: int, x: int, y: int)

  /** The `width`, `height`, `left` and `top` of a window's feature string. */
  datatype Bounds = Bounds(width: int, height: int, left: int, top: int)

  /**
   * A markdown popup: 800 wide, as tall as the screen less 100 but never under
   * 600, 300 to the right of the browser window and level with its top.
   */
  function PopupBounds(sc: Screen): (b: Bounds)
    ensures b.width == 800 && b.left == sc.x + 300 && b.top == sc.y
    ensures b.height >= 600 && b.height >= sc.height - 100
    ensures b.height == 600 || b.height == sc.height - 100
  {
    Bounds(800, if sc.height - 100 > 600 then sc.height - 100 else 600, sc.x + 300, sc.y)
  }

  /**
   * A plain page window: starts 25 to the right of the sidebar and ends 25
   * short of the screen's right edge, 50 from the top and 100 shorter than the
   * screen.
   */
  function PageBounds(sc: Screen, sidebarWidth: int): (b: Bounds)
    ensures b.left == sidebarWidth + 25 && b.left + b.width == sc.width - 25
    ensures b.top == 50 && b.height == sc.height - 100
  {
    Bounds(sc.width - sidebarWidth - 50, sc.height - 100, sidebarWidth + 25, 50)
  }

  // ---------------------------------------------------------------------------
  // Link dispatch
  // ---------------------------------------------------------------------------

  datatype LinkAction = RenderInPopup | OpenAsPage

  /** A sidebar link is rendered in a markdown popup exactly when its URL ends in `.md`. */
  function ClickAction(url: string): (a: LinkAction)
    ensures a == RenderInPopup <==> |url| >= 3 && url[|url| - 3..] == ".md"
  {
    if EndsWith(url, ".md") then RenderInPopup else OpenAsPage
  }

  /** A link to any name followed by `.md` is rendered in a markdown popup. */
  lemma MarkdownLinkInPopup(stem: string)
    ensures ClickAction(stem + ".md") == RenderInPopup
  {
    var url := stem + ".md";
    assert url[..|url| - 3] == stem;
    EndsWithSplit(url, ".md");
  }

}

=== FILE: popups.dfy ===
/**
 * What opening a markdown popup does: the three-way decision on the host's
 * answer, the reuse of a popup that already shows its shell, and how the
 * popup's fetch interacts with the content poll.
 */
module Popups {
  import opened Wrappers
  import opened Text
  import opened Layout
  import opened Tracker
  import opened Freshness

  /** The named popup, after an open of `url`, is showing its shell under `title`. */
  predicate ShowsShell(s: Session, url: string, title: string) {
    WindowName(url) in s.windows
    && HasContentMarker(s.windows[WindowName(url)])
    && s.windows[WindowName(url)].title == title
  }

  /**
   * Blocked by the host: an alert, no fetch, no window written; but the URL
   * is already the tracked file.
   */
  lemma OpenBlocked(s: Session, render: string -> string, url: string, title: string, sc: Screen, response: Response)
    ensures MarkdownOpened(s, render, url, title, sc, false, response)
         == s.(currentContentFile := url, alerts := s.alerts + [PopupBlocked])
  {
  }

  /** A popup already showing its shell under the same title is only focused: no fetch, no write. */
  lemma OpenReuses(s: Session, render: string -> string, url: string, title: string, sc: Screen, response: Response)
    requires ShowsShell(s, url, title)
    ensures MarkdownOpened(s, render, url, title, sc, true, response)
         == s.(currentContentFile := url, focused := s.focused + [WindowName(url)])
  {
  }

  /**
   * Any other allowed open retitles the popup and sends one GET without a
   * cache-buster; it leaves the other windows, the focus order and both page
   * areas alone.
   */
  lemma OpenWrites(s: Session, render: string -> string, url: string, title: string, sc: Screen, response: Response)
    requires !ShowsShell(s, url, title)
    ensures var t := MarkdownOpened(s, render, url, title, sc, true, response);
      && t.currentContentFile == url
      && t.requests == s.requests + [Request(url, Get, None)]
      && WindowName(url) in t.windows && t.windows[WindowName(url)].title == title
      && (forall n :: n in s.windows && n != WindowName(url) ==> n in t.windows && t.windows[n] == s.windows[n])
      && (forall n :: n in t.windows ==> n in s.windows || n == WindowName(url))
      && t.focused == s.focused && t.contentHtml == s.contentHtml && t.sidebarHtml == s.sidebarHtml
      && t.lastSidebarModified == s.lastSidebarModified && t.polling == s.polling && t.pages == s.pages
  {
    var name := WindowName(url);
    var doc := if name in s.windows then s.windows[name] else PopupDoc("", Blank, PopupBounds(sc));
    var s1 := s.(currentContentFile := url, windows := s.windows[name := doc.(title := title, body := Loading)]);
    assert MarkdownOpened(s, render, url, title, sc, true, response) == PopupFetched(s1, render, url, name, response);
  }

  /**
   * The `#content` marker, and with it the chance of reuse, appears only when
   * the GET succeeds and the shell is written; a failed GET leaves the
   * placeholder and raises an alert.
   */
  lemma OpenWritesShell(s: Session, render: string -> string, url: string, title: string, sc: Screen, response: Response)
    requires !ShowsShell(s, url, title)
    ensures var t := MarkdownOpened(s, render, url, title, sc, true, response);
      && WindowName(url) in t.windows
      && (HasContentMarker(t.windows[WindowName(url)]) <==> response.ok)
      && (response.ok ==> t.windows[WindowName(url)].body == Shell(LastSegment(url), render(response.body))
                          && t.alerts == s.alerts)
      && (!response.ok ==> t.windows[WindowName(url)].body == Loading && t.alerts == s.alerts + [OpenFailed(url)])
  {
  }

  /**
   * The popup's GET moves the stored content time only to a header time:
   * a missing header leaves it, with no fallback to the clock.
   */
  lemma OpenStoresHeaderOnly(s: Session, render: string -> string, url: string, title: string, sc: Screen, response: Response)
    requires !ShowsShell(s, url, title)
    ensures MarkdownOpened(s, render, url, title, sc, true, response).lastContentModified
         == if response.ok && response.lastModified.Some? then response.lastModified.value else s.lastContentModified
  {
  }

  /**
   * Opening the same URL twice with the same title, with nothing in between:
   * if the first open wrote the shell, the second sends no request and only
   * focuses the popup.
   */
  lemma {:induction false} OpenTwiceFetchesOnce(s: Session, render: string -> string, url: string, title: string,
                                                sc1: Screen, sc2: Screen, r1: Response, r2: Response)
    requires r1.ok
    ensures var a := MarkdownOpened(s, render, url, title, sc1, true, r1);
      var b := MarkdownOpened(a, render, url, title, sc2, true, r2);
      && |a.requests| <= |s.requests| + 1
      && b.requests == a.requests
      && b.windows == a.windows
      && b.focused == a.focused + [WindowName(url)]
  {
    var a := MarkdownOpened(s, render, url, title, sc1, true, r1);
    if ShowsShell(s, url, title) {
      OpenReuses(s, render, url, title, sc1, r1);
    } else {
      OpenWrites(s, render, url, title, sc1, r1);
      OpenWritesShell(s, render, url, title, sc1, r1);
    }
    assert ShowsShell(a, url, title);
    OpenReuses(a, render, url, title, sc2, r2);
  }

  /** If the first open's GET failed, the popup still shows the placeholder and the second open fetches again. */
  lemma {:induction false} OpenAfterFailureRefetches(s: Session, render: string -> string, url: string, title: string,
                                                     sc1: Screen, sc2: Screen, r1: Response, r2: Response)
    requires !r1.ok && !ShowsShell(s, url, title)
    ensures var a := MarkdownOpened(s, render, url, title, sc1, true, r1);
      var b := MarkdownOpened(a, render, url, title, sc2, true, r2);
      b.requests == s.requests + [Request(url, Get, None), Request(url, Get, None)]
  {
    var a := MarkdownOpened(s, render, url, title, sc1, true, r1);
    OpenWrites(s, render, url, title, sc1, r1);
    OpenWritesShell(s, render, url, title, sc1, r1);
    assert !ShowsShell(a, url, title);
    OpenWrites(a, render, url, title, sc2, r2);
  }

  /** Once the user closes the popup, the next open writes it afresh. */
  lemma ReopenAfterClose(s: Session, render: string -> string, url: string, title: string, sc: Screen, response: Response)
    ensures var t := MarkdownOpened(WindowClosed(s, WindowName(url)), render, url, title, sc, true, response);
      t.requests == s.requests + [Request(url, Get, None)]
      && t.windows[WindowName(url)].bounds == PopupBounds(sc)
  {
  }

  /**
   * Once the user has navigated or reloaded a popup that shows its shell, the
   * next open of the same URL under the same title writes it afresh: it sends
   * one more GET and focuses nothing.
   */
  lemma {:induction false} ReopenAfterNavigate(s: Session, render: string -> string, url: string, title: string,
                                               pageTitle: string, sc1: Screen, sc2: Screen, r1: Response, r2: Response)
    requires r1.ok
    ensures var a := MarkdownOpened(s, render, url, title, sc1, true, r1);
      var b := MarkdownOpened(WindowNavigated(a, WindowName(url), pageTitle), render, url, title, sc2, true, r2);
      && ShowsShell(a, url, title)
      && b.requests == a.requests + [Request(url, Get, None)]
      && b.focused == a.focused
      && b.windows[WindowName(url)].title == title
  {
    var a := MarkdownOpened(s, render, url, title, sc1, true, r1);
    if ShowsShell(s, url, title) {
      OpenReuses(s, render, url, title, sc1, r1);
    } else {
      OpenWrites(s, render, url, title, sc1, r1);
      OpenWritesShell(s, render, url, title, sc1, r1);
    }
    var n := WindowNavigated(a, WindowName(url), pageTitle);
    assert !ShowsShell(n, url, title);
    OpenWrites(n, render, url, title, sc2, r2);
  }

  /**
   * The popup's URL becomes the tracked file, so a later content poll that
   * sees a newer time redraws the main content area with that file and
   * leaves the popup itself as it was.
   */
  lemma {:induction false} PollAfterOpenTargetsMainArea(s: Session, render: string -> string, url: string, title: string,
                                                        sc: Screen, allowed: bool, response: Response,
                                                        head: Response, tick: int, reload: Fetched)
    requires url != WelcomeFile && EndsWith(url, ".md")
    requires reload.response.ok
    ensures var a := MarkdownOpened(s, render, url, title, sc, allowed, response);
      var b := ContentPolled(a, render, head, tick, reload);
      IsNewer(head, a.lastContentModified) ==>
        && b.contentHtml == render(reload.response.body)
        && b.windows == a.windows
        && b.lastContentModified == head.lastModified.value
        && b.requests == a.requests + [Request(url, Head, Some(tick)), Request(url, Get, Some(tick))]
  {
    var a := MarkdownOpened(s, render, url, title, sc, allowed, response);
    assert a.currentContentFile == url;
    if IsNewer(head, a.lastContentModified) {
      ContentPollMarkdown(a, render, head, tick, reload);
    }
  }

  /**
   * The popup's GET stores its header time without comparing, so opening a
   * popup can move the stored content time back.
   */
  lemma OpenMayRewind(render: string -> string, sc: Screen)
    ensures var s := InitialSession().(lastContentModified := 500);
      MarkdownOpened(s, render, "notes.md", "Notes", sc, true, Response(true, Some(20), "# Notes"))
        .lastContentModified == 20
  {
  }

  /**
   * Links: a `.md` link goes through the popup open and becomes the tracked
   * file; any other link opens a page window beside the sidebar and touches
   * neither the tracking state nor the popups.
   */
  lemma FollowLinkDispatch(s: Session, render: string -> string, url: string, title: string, sc: Screen,
                           sidebarWidth: int, response: Response)
    ensures var t := LinkFollowed(s, render, url, title, sc, sidebarWidth, true, response);
      && (EndsWith(url, ".md") ==> t == MarkdownOpened(s, render, url, title, sc, true, response))
      && (!EndsWith(url, ".md") ==>
            t == s.(pages := s.pages + [PageWindow(url, title, PageBounds(sc, sidebarWidth))]))
  {
  }
}

=== FILE: text.dfy ===
/**
 * String helpers of the viewer: the JavaScript string predicates it uses
 * (`startsWith`, `endsWith`, `includes`), the popup window name derived from a
 * URL, and the file label shown at the top of a popup.
 */
module Text {

  /** `s.startsWith(p)` */
  predicate StartsWith(s: string, p: string) {
    |p| <= |s| && s[..|p|] == p
  }

  /** `s.endsWith(p)` */
  predicate EndsWith(s: string, p: string) {
    |p| <= |s| && s[|s| - |p|..] == p
  }

  /** `s.includes(t)`: some position of `s` starts an occurrence of `t`. */
  predicate Contains(s: string, t: string) {
    exists i :: 0 <= i <= |s| && StartsWith(s[i..], t)
  }

  /** `startsWith` holds exactly when `s` is `p` followed by the rest of `s`. */
  lemma StartsWithSplit(s: string, p: string)
    ensures StartsWith(s, p) <==> |p| <= |s| && s == p + s[|p|..]
  {
    if |p| <= |s| && s == p + s[|p|..] {
      assert s[..|p|] == (p + s[|p|..])[..|p|];
    }
  }

  /** `endsWith` holds exactly when `s` is its front followed by `p`. */
  lemma EndsWithSplit(s: string, p: string)
    ensures EndsWith(s, p) <==> |p| <= |s| && s == s[..|s| - |p|] + p
  {
    if |p| <= |s| && s == s[..|s| - |p|] + p {
      assert s[|s| - |p|..] == (s[..|s| - |p|] + p)[|s| - |p|..];
    }
  }

  /** `includes` finds `t` wherever it sits, and never in a shorter string. */
  lemma ContainsInfix(a: string, t: string, b: string)
    ensures Contains(a + t + b, t)
    ensures forall s: string :: |s| < |t| ==> !Contains(s, t)
  {
    var s := a + t + b;
    assert s[|a|..][..|t|] == t;
    assert StartsWith(s[|a|..], t);
  }

  // ---------------------------------------------------------------------------
  // Window name: `markdown_${url.replace(/[^a-zA-Z0-9]/g, '_')}`
  // ---------------------------------------------------------------------------

  /** The characters of the class `[a-zA-Z0-9]`. */
  predicate IsAlnum(c: char) {
    ('a' <= c <= 'z') || ('A' <= c <= 'Z') || ('0' <= c <= '9')
  }

  /** What the global replace makes of one character. */
  function Normalise(c: char): char {
    if IsAlnum(c) then c else '_'
  }

  /** `s.replace(/[^a-zA-Z0-9]/g, '_')`, one character at a time. */
  function ReplaceNonAlnum(s: string): (r: string)
    ensures |r| == |s|
    ensures forall i :: 0 <= i < |s| && IsAlnum(s[i]) ==> r[i] == s[i]
    ensures forall i :: 0 <= i < |s| && !IsAlnum(s[i]) ==> r[i] == '_'
  {
    if s == [] then [] else [Normalise(s[0])] + ReplaceNonAlnum(s[1..])
  }

  const WindowPrefix := "markdown_"

  /** The name under which a markdown popup for `url` is opened. */
  function WindowName(url: string): (r: string)
    ensures |r| == 9 + |url|
    ensures r[..9] == "markdown_"
    ensures forall i :: 0 <= i < |url| && IsAlnum(url[i]) ==> r[9 + i] == url[i]
    ensures forall i :: 0 <= i < |url| && !IsAlnum(url[i]) ==> r[9 + i] == '_'
    ensures forall i :: 9 <= i < |r| ==> IsAlnum(r[i]) || r[i] == '_'
  {
    WindowPrefix + ReplaceNonAlnum(url)
  }

  /**
   * Two URLs share a window name exactly when they have the same length and
   * agree on every position once non-alphanumerics are read as `_`.
   */
  lemma WindowNameEqualIff(u: string, v: string)
    ensures WindowName(u) == WindowName(v) <==>
            |u| == |v| && forall i :: 0 <= i < |u| ==> Normalise(u[i]) == Normalise(v[i])
  {
    if WindowName(u) == WindowName(v) {
      forall i | 0 <= i < |u|
        ensures Normalise(u[i]) == Normalise(v[i])
      {
        assert WindowName(u)[9 + i] == WindowName(v)[9 + i];
      }
    }
    if |u| == |v| && forall i :: 0 <= i < |u| ==> Normalise(u[i]) == Normalise(v[i]) {
      forall k | 0 <= k < |WindowName(u)|
        ensures WindowName(u)[k] == WindowName(v)[k]
      {
        if k >= 9 {
          assert Normalise(u[k - 9]) == Normalise(v[k - 9]);
        } else {
          assert WindowName(u)[..9][k] == WindowName(v)[..9][k];
        }
      }
    }
  }

  /** URLs that differ only where both hold non-alphanumerics share a popup. */
  lemma WindowNameCollides(u: string, v: string)
    requires |u| == |v|
    requires forall i :: 0 <= i < |u| && u[i] != v[i] ==> !IsAlnum(u[i]) && !IsAlnum(v[i])
    ensures WindowName(u) == WindowName(v)
  {
    forall i | 0 <= i < |u|
      ensures Normalise(u[i]) == Normalise(v[i])
    {
    }
    WindowNameEqualIff(u, v);
  }

  /** URLs that differ at an alphanumeric position get distinct popups. */
  lemma WindowNameSeparates(u: string, v: string, i: nat)
    requires i < |u| && i < |v| && u[i] != v[i] && IsAlnum(u[i])
    ensures WindowName(u) != WindowName(v)
  {
    assert WindowName(u)[9 + i] != WindowName(v)[9 + i];
  }

  // ---------------------------------------------------------------------------
  // File label: `url.split('/').pop()`
  // ---------------------------------------------------------------------------

  /** The text after the last `/` of `s`, or all of `s` when it has none. */
  function LastSegment(s: string): (r: string)
    ensures |r| <= |s| && r == s[|s| - |r|..]
    ensures '/' !in r
    ensures |r| < |s| ==> s[|s| - |r| - 1] == '/'
  {
    if |s| == 0 then ""
    else if s[|s| - 1] == '/' then ""
    else LastSegment(s[..|s| - 1]) + [s[|s| - 1]]
  }

  /**
   * A suffix of `s` longer than a suffix that follows a `/` contains that `/`.
   */
  lemma LongerSuffixHasSlash(s: string, r: string, q: string)
    requires |r| <= |s| && r == s[|s| - |r|..]
    requires |q| <= |s| && (|q| < |s| ==> s[|s| - |q| - 1] == '/')
    ensures |q| < |r| ==> '/' in r
  {
    if |q| < |r| {
      assert r[|r| - |q| - 1] == s[|s| - |q| - 1];
    }
  }

  /** Two suffixes of `s` of the same length are the same text. */
  lemma SameLengthSuffix(s: string, r: string, q: string)
    requires |r| <= |s| && r == s[|s| - |r|..]
    requires |q| == |r| && q == s[|s| - |q|..]
    ensures q == r
  {
  }

  /**
   * The three properties of `LastSegment` determine it: any suffix without
   * `/` that is the whole string or follows a `/` is the label.
   */
  lemma {:induction false} LastSegmentUnique(s: string, r: string)
    requires |r| <= |s| && r == s[|s| - |r|..]
    requires '/' !in r
    requires |r| < |s| ==> s[|s| - |r| - 1] == '/'
    ensures r == LastSegment(s)
  {
    var q := LastSegment(s);
    LongerSuffixHasSlash(s, r, q);
    LongerSuffixHasSlash(s, q, r);
    SameLengthSuffix(s, r, q);
  }

  /** The label of `dir/name` is `name` when `name` has no `/`. */
  lemma LastSegmentOfPath(dir: string, name: string)
    requires '/' !in name
    ensures LastSegment(dir + "/" + name) == name
  {
    var s := dir + "/" + name;
    assert s[|s| - |name|..] == name;
    assert s[|s| - |name| - 1] == '/';
    LastSegmentUnique(s, name);
  }
}

=== FILE: tracker.dfy ===
/**
 * The viewer's tracking state and display as one value, and each of its
 * operations as a transition of that value. Every operation is taken as one
 * atomic step over the fetch results it would receive; the request it sends
 * is recorded in `requests`, so "no fetch happens" is a statement about that
 * log.
 */
module Tracker {
  import opened Wrappers
  import opened Text
  import opened Headings
  import opened Layout

  datatype Verb = Get | Head

  /** A request the viewer sends: the path, the verb, and the `?t=` cache-buster if any. */
  datatype Request = Request(path: string, verb: Verb, cacheBuster: Option<int>)

  /**
   * What a fetch yields: whether it succeeded (`response.ok`; a transport
   * failure is read as `ok == false`, as every caller treats both alike), the
   * `Last-Modified` time if the header is present, and the body text.
   */
  datatype Response = Response(ok: bool, lastModified: Option<int>, body: string)

  /** A full load's response together with the clock reading taken just before it was requested. */
  datatype Fetched = Fetched(response: Response, clock: int)

  /**
   * The body of a popup document: new and empty, the loading placeholder, the
   * written shell, or a page of the same origin the user has since navigated
   * the popup to or reloaded it into (it has no `#content` element).
   */
  datatype PopupBody = Blank | Loading | Shell(fileLabel: string, content: string) | Navigated

  datatype PopupDoc = PopupDoc(title: string, body: PopupBody, bounds: Bounds)

  /** A plain page window opened for a link that is not markdown. */
  datatype PageWindow = PageWindow(url: string, name: string, bounds: Bounds)

  datatype Alert = PopupBlocked | OpenFailed(url: string)

  datatype Session = Session(
    lastSidebarModified: int,
    currentContentFile: string,
    lastContentModified: int,
    sidebarHtml: string,
    contentHtml: string,
    polling: bool,                      // whether the two poll timers were started
    windows: map<string, PopupDoc>,     // named popup windows
    focused: seq<string>,               // windows brought to the front, in order
    pages: seq<PageWindow>,
    requests: seq<Request>,
    alerts: seq<Alert>)

  const SidebarFile := "sidebar.md"
  const SidebarErrorHtml := "<div class=\"sidebar-title\">Error</div>" + "<p>Failed to load sidebar content</p>"
  const WelcomeErrorHtml := "<h1>Welcome to Static Dashboard</h1>"
    + "<p>There was an error loading the welcome content. Please check the console for details.</p>"

  function LoadingHtml(file: string): string {
    "<p>Loading " + file + "...</p>"
  }

  /** The `#content` element exists only in the written shell. */
  predicate HasContentMarker(d: PopupDoc) {
    d.body.Shell?
  }

  /** The time a full load records: the header's when present, else the load's own clock. */
  function StoredTime(r: Response, clock: int): int {
    if r.lastModified.Some? then r.lastModified.value else clock
  }

  /** A HEAD poll reports a change: it succeeded, carries a time, and that time is strictly later. */
  predicate IsNewer(head: Response, stored: int) {
    head.ok && head.lastModified.Some? && head.lastModified.value > stored
  }

  /** The page's state before start-up: both times 0 and `welcome.md` as the tracked file. */
  function InitialSession(): Session {
    Session(0, WelcomeFile, 0, "", "", false, map[], [], [], [], [])
  }

  // ---------------------------------------------------------------------------
  // Transitions
  // ---------------------------------------------------------------------------

  /** `loadSidebar`: GET the sidebar; on success record its time and show the rewritten HTML. */
  function SidebarLoaded(s: Session, render: string -> string, f: Fetched): (r: Session)
    ensures r.requests == s.requests + [Request(SidebarFile, Get, Some(f.clock))]
    ensures r.(lastSidebarModified := s.lastSidebarModified, sidebarHtml := s.sidebarHtml, requests := s.requests) == s
    ensures !f.response.ok ==> r.lastSidebarModified == s.lastSidebarModified && r.sidebarHtml == s.sidebarHtml
  {
    var s1 := s.(requests := s.requests + [Request(SidebarFile, Get, Some(f.clock))]);
    if !f.response.ok then s1
    else s1.(lastSidebarModified := StoredTime(f.response, f.clock),
             sidebarHtml := SidebarHeadings(render(f.response.body)))
  }

  /**
   * `loadContent`: show the loading line and switch the tracked file before
   * the GET; on success record its time and show the rendered body.
   */
  function ContentLoaded(s: Session, render: string -> string, file: string, f: Fetched): (r: Session)
    ensures r.currentContentFile == file
    ensures r.requests == s.requests + [Request(file, Get, Some(f.clock))]
    ensures r.(currentContentFile := s.currentContentFile, lastContentModified := s.lastContentModified,
               contentHtml := s.contentHtml, requests := s.requests) == s
    ensures !f.response.ok ==> r.lastContentModified == s.lastContentModified && r.contentHtml == LoadingHtml(file)
  {
    var s1 := s.(contentHtml := LoadingHtml(file), currentContentFile := file,
                 requests := s.requests + [Request(file, Get, Some(f.clock))]);
    if !f.response.ok then s1
    else s1.(lastContentModified := StoredTime(f.response, f.clock), contentHtml := render(f.response.body))
  }

  /** `loadWelcomeContent`: load `welcome.md`, replacing the loading line by an error block if that fails. */
  function WelcomeLoaded(s: Session, render: string -> string, f: Fetched): (r: Session)
    ensures r.currentContentFile == WelcomeFile
    ensures r.(currentContentFile := s.currentContentFile, lastContentModified := s.lastContentModified,
               contentHtml := s.contentHtml, requests := s.requests) == s
    ensures !f.response.ok ==> r.lastContentModified == s.lastContentModified && r.contentHtml == WelcomeErrorHtml
  {
    var s1 := ContentLoaded(s, render, WelcomeFile, f);
    if f.response.ok then s1 else s1.(contentHtml := WelcomeErrorHtml)
  }

  /** `checkModeAndGreet`: load the mode's greeting, falling back to the welcome page on failure. */
  function Greeted(s: Session, render: string -> string, page: PageSignals, greeting: Fetched, fallback: Fetched): (r: Session)
    ensures r.currentContentFile == if greeting.response.ok then GreetingFile(page) else WelcomeFile
    ensures |r.requests| == |s.requests| + (if greeting.response.ok then 1 else 2)
    ensures r.(currentContentFile := s.currentContentFile, lastContentModified := s.lastContentModified,
               contentHtml := s.contentHtml, requests := s.requests) == s
  {
    var s1 := ContentLoaded(s, render, GreetingFile(page), greeting);
    if greeting.response.ok then s1 else WelcomeLoaded(s1, render, fallback)
  }

  /**
   * `initDashboard`: the sidebar, then the greeting, then the welcome page,
   * then the two poll timers; a failed sidebar load shows the sidebar error
   * and stops there.
   */
  function Initialised(s: Session, render: string -> string, sidebar: Fetched, page: PageSignals,
                       greeting: Fetched, fallback: Fetched, welcome: Fetched): (r: Session)
    ensures r.polling == (sidebar.response.ok || s.polling)
    ensures sidebar.response.ok ==> r.currentContentFile == WelcomeFile
    ensures !sidebar.response.ok ==> r.sidebarHtml == SidebarErrorHtml && r.currentContentFile == s.currentContentFile
                                     && r.contentHtml == s.contentHtml && |r.requests| == |s.requests| + 1
    ensures r.windows == s.windows && r.focused == s.focused && r.pages == s.pages && r.alerts == s.alerts
  {
    var s1 := SidebarLoaded(s, render, sidebar);
    if !sidebar.response.ok then s1.(sidebarHtml := SidebarErrorHtml)
    else WelcomeLoaded(Greeted(s1, render, page, greeting, fallback), render, welcome).(polling := true)
  }

  /** `checkSidebarUpdates`: HEAD the sidebar and reload it only on a strictly later time. */
  function SidebarPolled(s: Session, render: string -> string, head: Response, tick: int, reload: Fetched): (r: Session)
    ensures |r.requests| == |s.requests| + (if IsNewer(head, s.lastSidebarModified) then 2 else 1)
    ensures r.(lastSidebarModified := s.lastSidebarModified, sidebarHtml := s.sidebarHtml, requests := s.requests) == s
    ensures !IsNewer(head, s.lastSidebarModified) ==> r.lastSidebarModified == s.lastSidebarModified && r.sidebarHtml == s.sidebarHtml
  {
    var s1 := s.(requests := s.requests + [Request(SidebarFile, Head, Some(tick))]);
    if IsNewer(head, s.lastSidebarModified) then SidebarLoaded(s1, render, reload) else s1
  }

  /**
   * `checkContentUpdates`: HEAD the tracked file; on a strictly later time,
   * `welcome.md` goes through the welcome load, any other `.md` file is
   * fetched again with the tick's cache-buster and, on success, rendered with
   * the polled time recorded; any other file is left alone.
   */
  function ContentPolled(s: Session, render: string -> string, head: Response, tick: int, reload: Fetched): (r: Session)
    ensures s.currentContentFile == "" ==> r == s
    ensures r.(lastContentModified := s.lastContentModified, contentHtml := s.contentHtml, requests := s.requests) == s
    ensures !IsNewer(head, s.lastContentModified) ==> r.lastContentModified == s.lastContentModified && r.contentHtml == s.contentHtml
  {
    var file := s.currentContentFile;
    if file == "" then s
    else
      var s1 := s.(requests := s.requests + [Request(file, Head, Some(tick))]);
      if !IsNewer(head, s.lastContentModified) then s1
      else if file == WelcomeFile then WelcomeLoaded(s1, render, reload)
      else if EndsWith(file, ".md") then
        var s2 := s1.(requests := s1.requests + [Request(file, Get, Some(tick))]);
        if reload.response.ok
        then s2.(contentHtml := render(reload.response.body), lastContentModified := head.lastModified.value)
        else s2
      else s1
  }

  /**
   * `openMarkdownInWindow`: track the URL, then ask the host for the named
   * popup. Blocked: alert. A popup already showing the shell under this
   * title: focus it. Otherwise: set the title, write the placeholder, and
   * fetch into the popup.
   */
  function MarkdownOpened(s: Session, render: string -> string, url: string, title: string,
                          sc: Screen, allowed: bool, response: Response): (r: Session)
    ensures r.currentContentFile == url
    ensures r.lastSidebarModified == s.lastSidebarModified && r.sidebarHtml == s.sidebarHtml
    ensures r.contentHtml == s.contentHtml && r.polling == s.polling && r.pages == s.pages
  {
    var s1 := s.(currentContentFile := url);
    var name := WindowName(url);
    if !allowed then s1.(alerts := s.alerts + [PopupBlocked])
    else
      var doc := if name in s.windows then s.windows[name] else PopupDoc("", Blank, PopupBounds(sc));
      if HasContentMarker(doc) && doc.title == title then s1.(focused := s.focused + [name])
      else PopupFetched(s1.(windows := s.windows[name := doc.(title := title, body := Loading)]), render, url, name, response)
  }

  /** The named popups after one popup's document body is replaced. */
  function WithBody(w: map<string, PopupDoc>, name: string, body: PopupBody): (r: map<string, PopupDoc>)
    requires name in w
    ensures forall n :: n in r <==> n in w
    ensures r[name].title == w[name].title && r[name].body == body
    ensures forall n :: n in w && n != name ==> r[n] == w[n]
  {
    w[name := w[name].(body := body)]
  }

  /**
   * The popup's fetch and its continuation: GET the URL without a
   * cache-buster, record its header time if any (no clock fallback), and
   * write the shell; on failure alert and leave the popup as it is.
   */
  function PopupFetched(s: Session, render: string -> string, url: string, name: string, response: Response): (r: Session)
    requires name in s.windows
    ensures r.requests == s.requests + [Request(url, Get, None)]
    ensures name in r.windows && r.windows[name].title == s.windows[name].title
    ensures forall n :: n in r.windows <==> n in s.windows
    ensures forall n :: n in s.windows && n != name ==> r.windows[n] == s.windows[n]
    ensures r.currentContentFile == s.currentContentFile && r.contentHtml == s.contentHtml && r.focused == s.focused
    ensures r.lastSidebarModified == s.lastSidebarModified && r.sidebarHtml == s.sidebarHtml
    ensures r.polling == s.polling && r.pages == s.pages
  {
    var sent := s.requests + [Request(url, Get, None)];
    if !response.ok then s.(requests := sent, alerts := s.alerts + [OpenFailed(url)])
    else
      s.(requests := sent,
         lastContentModified := if response.lastModified.Some? then response.lastModified.value else s.lastContentModified,
         windows := WithBody(s.windows, name, Shell(LastSegment(url), render(response.body))))
  }

  /** A click on a sidebar link: markdown goes to its popup, anything else to a plain page window. */
  function LinkFollowed(s: Session, render: string -> string, url: string, title: string, sc: Screen,
                        sidebarWidth: int, allowed: bool, response: Response): (r: Session)
    ensures r.lastSidebarModified == s.lastSidebarModified && r.sidebarHtml == s.sidebarHtml && r.contentHtml == s.contentHtml
    ensures ClickAction(url) == OpenAsPage ==> r.(pages := s.pages) == s
  {
    match ClickAction(url)
    case RenderInPopup => MarkdownOpened(s, render, url, title, sc, allowed, response)
    case OpenAsPage =>
      if allowed then s.(pages := s.pages + [PageWindow(url, title, PageBounds(sc, sidebarWidth))]) else s
  }

  /**
   * The user follows a link inside a popup, or reloads it, and it now shows a
   * same-origin page titled `pageTitle`; the viewer is not told.
   */
  function WindowNavigated(s: Session, name: string, pageTitle: string): (r: Session)
    ensures forall n :: n in r.windows <==> n in s.windows
    ensures name in s.windows ==> !HasContentMarker(r.windows[name]) && r.windows[name].title == pageTitle
                                  && r.windows[name].bounds == s.windows[name].bounds
    ensures forall n :: n in s.windows && n != name ==> r.windows[n] == s.windows[n]
    ensures r.(windows := s.windows) == s
  {
    if name in s.windows then s.(windows := s.windows[name := PopupDoc(pageTitle, Navigated, s.windows[name].bounds)])
    else s
  }

  /** The user closes a popup; the viewer is not told. */
  function WindowClosed(s: Session, name: string): (r: Session)
    ensures name !in r.windows
    ensures forall n :: n in s.windows && n != name ==> n in r.windows && r.windows[n] == s.windows[n]
    ensures r.(windows := s.windows) == s
  {
    s.(windows := s.windows - {name})
  }
}

=== FILE: wrappers.dfy ===
/** The optional value used for a response header that may be absent. */
module Wrappers {
  datatype Option<+T> = None | Some(value: T)
}
